=== FILE: README.md ===
# Minebot tasks: inventory transfer and face-and-interact

A Dafny model of two per-tick task state machines from Minebot's behaviour
layer. Each task is an immutable record and each tick a pure function from
the task and what the agent observes to the new task and what it does.

- **MoveInInventoryTask** (`move_in_inventory.dfy`, properties in
  `move_properties.dfy`): moves an exact number of items from one slot of
  the open container to another. Each evaluated tick first drains whole
  stacks (bulk), then makes exactly one of: a half-stack move, a partial
  move placing one item per right-click, a missing-items notification, or
  completion. Three structural failures are reported as a desync, and every
  evaluated tick is followed by `DELAY = 5` waiting ticks.
- **FaceAndInteractTask** (`face_and_interact.dfy`): walks toward a preferred
  entity and uses or attacks the first acceptable entity under the crosshair,
  jumping when it seems stuck.

The container (`inventory.dfy`) is a sequence of slots, each with an optional
stack and a slot limit, plus the stack held on the mouse cursor. Clicks have
simple deterministic semantics. A left-click with an empty cursor picks up the
whole stack, and with a held stack puts the whole held stack down. A
right-click with an empty cursor takes the larger half, leaving Java's `n / 2`
in the slot, and with a held stack puts down one item. Every click conserves
the number of items. Every tick's container change is exactly the effect of
the clicks it reports.

Timing facts the model proves about the code:
- After an evaluated tick, the next five ticks (`DELAY`) only count down, and
  the sixth evaluates again (`EvaluationThenQuietTicks`).
- A full stack requested into an empty destination completes in the same
  tick: the completion branch runs right after the bulk loop
  (`ScenarioWholeStack`, `FreshTaskWholeStack`).

The model follows the code on every input except one. A move from a slot
onto itself never returns when the cursor is empty and the loop condition
holds on entry. There the model reports the desync `SameSlotLoop` instead;
see Findings.

## Model

| member | source | states |
|---|---|---|
| Inventory.JavaHalf | Minebot/src/net/famzangl/minecraft/minebot/ai/task/inventory/MoveInInventoryTask.java:126 | integer halving rounds toward zero as Java's `/` does, for negative counts too |
| Inventory.ContentCount | Minebot/src/net/famzangl/minecraft/minebot/ai/task/inventory/MoveInInventoryTask.java:177-179 | a slot without a stack counts 0 items and a slot with a stack counts its stack size; so a positive source count guarantees a stack whose max stack size can be read |
| Inventory.LeftClick | Minebot/src/net/famzangl/minecraft/minebot/ai/task/inventory/MoveInInventoryTask.java:158-164 | a left-click (button 0) moves the whole stack between slot and cursor: an empty cursor empties the slot into itself, a held stack ends up entirely in the slot; slot plus cursor keep their item total and no other slot changes; the clicked slot keeps its slot limit, and the stack left in it keeps the max stack size of the stack it came from |
| Inventory.RightClick | Minebot/src/net/famzangl/minecraft/minebot/ai/task/inventory/MoveInInventoryTask.java:158-164 | a right-click (button 1) with an empty cursor leaves half (rounded toward zero) in the slot; with a held stack it puts exactly one item down; slot plus cursor keep their item total and no other slot changes; the clicked slot keeps its slot limit, and the stacks left in the slot and on the cursor keep the max stack size of the stacks they came from; the cursor is empty exactly when it holds no items, and after a click with an empty cursor the slot is empty exactly when its count is 0 |
| Inventory.ClickConservesItems | Minebot/src/net/famzangl/minecraft/minebot/ai/task/inventory/MoveInInventoryTask.java:158-164 | one click neither creates nor destroys items: the container's total over all slots and the cursor is unchanged |
| Inventory.ApplyClicks | Minebot/src/net/famzangl/minecraft/minebot/ai/task/inventory/MoveInInventoryTask.java:158-164 | any sequence of clicks keeps the number of slots and the total item count |
| MoveInInventory.CheckMove | Minebot/src/net/famzangl/minecraft/minebot/ai/task/inventory/MoveInInventoryTask.java:89-109 | the structural checks in order: a negative index or one not below the slot count is an invalid move specification, else a source count of 0 or less is "nothing in source slot", else the move proceeds; equal source and destination pass, as in the code |
| MoveInInventory.IsFinished | Minebot/src/net/famzangl/minecraft/minebot/ai/task/inventory/MoveInInventoryTask.java:74-77 | `isFinished` is exactly the `moveDone` flag; it reads nothing else, so repeated calls agree |
| MoveInInventory.Limit | Minebot/src/net/famzangl/minecraft/minebot/ai/task/inventory/MoveInInventoryTask.java:116-117 | the transfer limit is the smaller of the destination slot's limit and the source stack's max stack size |
| MoveInInventory.InitialMissing | Minebot/src/net/famzangl/minecraft/minebot/ai/task/inventory/MoveInInventoryTask.java:112-118 | the starting `missing` is the smaller of the requested amount for the destination's count and `limit` minus that count, so the request never takes the destination past `limit` |
| MoveInInventory.MoveStack | Minebot/src/net/famzangl/minecraft/minebot/ai/task/inventory/MoveInInventoryTask.java:140-156 | moveAll/moveHalf: a left- or right-click on the source then a left-click on the destination, whose effect is the container change, returning the destination's observed count change |
| MoveInInventory.MoveStackPart | Minebot/src/net/famzangl/minecraft/minebot/ai/task/inventory/MoveInInventoryTask.java:166-175 | the partial move issues one left-click on the source, then exactly `count` right-clicks on the destination (none if `count` is not positive), then one left-click on the source, and returns the destination's observed change |
| MoveInInventory.Bulk | Minebot/src/net/famzangl/minecraft/minebot/ai/task/inventory/MoveInInventoryTask.java:120-123 | the bulk loop terminates whenever it is not the same-slot, empty-cursor loop that spins; every gesture it makes is made while `0 < count <= missing` holds, with `missing` lowered by the destination's change so far, and it stops the first time that condition fails; `missing` fell by exactly the destination's total observed change; the clicks are left-click pairs source/destination, one per gesture, and their effect is the container after |
| MoveInInventory.Evaluate | Minebot/src/net/famzangl/minecraft/minebot/ai/task/inventory/MoveInInventoryTask.java:110-135 | `limit` and the starting `missing` are those of lines 116-118; the clicks start with one left-click pair per bulk gesture, each made while the loop condition held, and the source count and `missing` after those clicks are the values the tiers test; exactly one tier follows: half iff the larger half of the source fits in `missing` and the source is non-empty, with clicks right-click source then left-click destination; partial iff not half and both are positive, with one left-click on the source, `missing` right-clicks on the destination and one left-click on the source; shortfall (with the positive residual) iff `missing` is positive and the source empty, or done iff `missing` is 0 or less, both with no further click; `missing` always falls by the observed destination change and the container after is the effect of the clicks |
| MoveInInventory.RunTick | Minebot/src/net/famzangl/minecraft/minebot/ai/task/inventory/MoveInInventoryTask.java:79-138 | no open container: a desync and nothing else changes (delay, flag, clicks); a pending delay: only `delay` decreases by one; a failed structural check: that desync and nothing else; a move the bulk loop would never finish: the `SameSlotLoop` desync and nothing else; otherwise the tick's report, clicks and container are those of `Evaluate` and `delay` becomes `DELAY` on every branch; the task becomes finished iff it was or the done tier ran |
| MoveInInventory.ConvertPlayerInventorySlot | Minebot/src/net/famzangl/minecraft/minebot/ai/task/inventory/MoveInInventoryTask.java:181-188 | inventory slots 0..8 map into 27..35 and 9..35 into 0..26, and `PlayerInventorySlot` undoes the mapping on 0..35, so it is a bijection of 0..35 |
| MoveInInventory.PlayerInventorySlot | Minebot/src/net/famzangl/minecraft/minebot/ai/task/inventory/MoveInInventoryTask.java:181-188 | the inverse slot mapping stays within 0..35 |
| MoveInInventoryProperties.WholeStackGesture | Minebot/src/net/famzangl/minecraft/minebot/ai/task/inventory/MoveInInventoryTask.java:140-156 | with distinct slots and an empty cursor, moveAll moves the whole source stack to the destination, empties the source and cursor, and touches no other slot |
| MoveInInventoryProperties.HalfStackGesture | Minebot/src/net/famzangl/minecraft/minebot/ai/task/inventory/MoveInInventoryTask.java:144-156 | with distinct slots and an empty cursor, moveHalf moves the larger half of the source and leaves `n / 2` behind, touching no other slot |
| MoveInInventoryProperties.PlaceSingles | Minebot/src/net/famzangl/minecraft/minebot/ai/task/inventory/MoveInInventoryTask.java:170-172 | `n` right-clicks on the destination while holding more than `n` items put exactly `n` items there |
| MoveInInventoryProperties.PartialGesture | Minebot/src/net/famzangl/minecraft/minebot/ai/task/inventory/MoveInInventoryTask.java:166-175 | with distinct slots, an empty cursor and fewer items requested than the source holds, the partial move places exactly that many on the destination and puts the rest back on the source |
| MoveInInventoryProperties.BulkWithEmptyCursor | Minebot/src/net/famzangl/minecraft/minebot/ai/task/inventory/MoveInInventoryTask.java:120-123 | with an empty cursor the bulk loop makes at most one whole-stack gesture, which drains the source |
| MoveInInventoryProperties.HeldCursorBulk | Minebot/src/net/famzangl/minecraft/minebot/ai/task/inventory/MoveInInventoryTask.java:120-123 | with a held stack and an empty destination, when held and source items together fit in `missing`, the loop makes exactly two gestures: the first drops the held items on the source and moves nothing, the second carries them all across |
| MoveInInventoryProperties.HeldCursorShortfall | Minebot/src/net/famzangl/minecraft/minebot/ai/task/inventory/MoveInInventoryTask.java:120-132 | with a held stack and an empty destination whose request exceeds held plus source items, the tick makes two gestures, puts every one of those items on the destination, and reports the remainder as missing |
| MoveInInventoryProperties.EvaluateTransfer | Minebot/src/net/famzangl/minecraft/minebot/ai/task/inventory/MoveInInventoryTask.java:116-135 | with an empty cursor and distinct slots one evaluated tick moves the whole source if it fits in `missing`, else its larger half if that fits, else exactly `missing`, else nothing; items go only from source to destination, nothing else changes, and the destination never passes `limit` |
| MoveInInventoryProperties.FinishedStaysFinished | Minebot/src/net/famzangl/minecraft/minebot/ai/task/inventory/MoveInInventoryTask.java:74-77 | `isFinished` is the `moveDone` flag and no tick resets it, so once finished the task stays finished over any number of ticks |
| MoveInInventoryProperties.PacingWaits | Minebot/src/net/famzangl/minecraft/minebot/ai/task/inventory/MoveInInventoryTask.java:86-87 | while a delay is pending and the container stays open, each tick only decrements the delay, issues no click and reports a wait |
| MoveInInventoryProperties.EvaluationThenQuietTicks | Minebot/src/net/famzangl/minecraft/minebot/ai/task/inventory/MoveInInventoryTask.java:136 | after any evaluated tick the next `DELAY` ticks issue no click, and the tick after them is not a wait |
| MoveInInventoryProperties.ScenarioWholeStack | Minebot/src/net/famzangl/minecraft/minebot/ai/task/inventory/MoveInInventoryTask.java:120-134 | one full stack requested into an empty destination: a single left-click pair moves it, `missing` reaches 0 and the same tick completes the task |
| MoveInInventoryProperties.ScenarioPartial | Minebot/src/net/famzangl/minecraft/minebot/ai/task/inventory/MoveInInventoryTask.java:126-130 | fewer than half the source requested into an empty destination: the partial tier places exactly that many, one per right-click, and the task is not yet done |
| MoveInInventoryProperties.ScenarioShortfall | Minebot/src/net/famzangl/minecraft/minebot/ai/task/inventory/MoveInInventoryTask.java:129-132 | more requested than the source holds: the source is drained, the missing-items notification gets the difference, the task is not done, and its next evaluation reports nothing in the source slot |
| MoveInInventoryProperties.SameSlotHalfGesture | Minebot/src/net/famzangl/minecraft/minebot/ai/task/inventory/MoveInInventoryTask.java:144-156 | with an empty cursor, moveHalf from a slot onto itself puts the half straight back: the observed change is 0 and nothing else changes |
| MoveInInventoryProperties.SameSlotPartialGesture | Minebot/src/net/famzangl/minecraft/minebot/ai/task/inventory/MoveInInventoryTask.java:166-175 | with an empty cursor, the partial move from a slot onto itself puts every item back: the observed change is 0 and nothing else changes |
| MoveInInventoryProperties.SameSlotTickMovesNothing | Minebot/src/net/famzangl/minecraft/minebot/ai/task/inventory/MoveInInventoryTask.java:110-135 | a same-slot move made with an empty cursor that does not spin moves nothing and leaves `missing` as it was; the task is done on that tick iff nothing was missing |
| MoveInInventoryProperties.SameSlotHeldCursorTick | Minebot/src/net/famzangl/minecraft/minebot/ai/task/inventory/MoveInInventoryTask.java:118-133 | a same-slot move made with a held stack while the loop condition holds: one gesture leaves the slot empty with every item on the cursor, the loop stops, no other slot changes, and the tick reports a shortfall of the request plus the slot's former count |
| MoveInInventoryProperties.SameSlotNothingRequested | Minebot/src/net/famzangl/minecraft/minebot/ai/task/inventory/MoveInInventoryTask.java:118-136 | ten items in slot 0 and nothing requested from slot 0 to itself: no click, the done branch runs, `moveDone` becomes true and `delay` becomes 5 |
| MoveInInventoryProperties.FreshTaskWholeStack | Minebot/src/net/famzangl/minecraft/minebot/ai/task/inventory/MoveInInventoryTask.java:39-43 | a freshly created task is not finished, is evaluated on its first tick, and finishes then if one full stack fills the request |
| MoveInInventoryProperties.BulkAsWritten | Minebot/src/net/famzangl/minecraft/minebot/ai/task/inventory/MoveInInventoryTask.java:120-123 | the bulk loop as written, run for a bounded number of iterations, exits only with its condition false |
| MoveInInventoryProperties.SameSlotGestureIsNoOp | Minebot/src/net/famzangl/minecraft/minebot/ai/task/inventory/MoveInInventoryTask.java:140-156 | with an empty cursor, moveAll from a slot onto itself puts the stack back and observes a change of 0 |
| MoveInInventoryProperties.SameSlotBulkNeverExits | Minebot/src/net/famzangl/minecraft/minebot/ai/task/inventory/MoveInInventoryTask.java:120-123 | with source equal to destination and an empty cursor, once the loop condition holds it holds for ever |
| MoveInInventoryProperties.SpinningRequestsNeverExit | Minebot/src/net/famzangl/minecraft/minebot/ai/task/inventory/MoveInInventoryTask.java:120-123 | every request the model reports as `SameSlotLoop` makes the code's bulk loop run for any number of iterations |
| MoveInInventoryProperties.BulkAsWrittenAgrees | Minebot/src/net/famzangl/minecraft/minebot/ai/task/inventory/MoveInInventoryTask.java:120-123 | outside the spinning case the loop as written exits within a bounded number of iterations, in the container and with the `missing` that `Bulk` computes |
| MoveInInventoryProperties.NonSpinningRequestsExit | Minebot/src/net/famzangl/minecraft/minebot/ai/task/inventory/MoveInInventoryTask.java:110-123 | every request the model evaluates leaves the loop as written, with the source count and `missing` that the tiers of `Evaluate` test; with `SpinningRequestsNeverExit` this makes `WouldSpin` exactly the requests whose loop never returns |
| MoveInInventoryProperties.SameSlotRequestSpins | Minebot/src/net/famzangl/minecraft/minebot/ai/task/inventory/MoveInInventoryTask.java:91-123 | a concrete same-slot request passes MoveInInventoryTask's checks, spins in its bulk loop for any number of iterations, and gets the `SameSlotLoop` desync in the model |
| FaceAndInteract.New | Minebot/src/net/famzangl/minecraft/minebot/ai/task/FaceAndInteractTask.java:64-69 | a new task has the given target, acceptance predicate and verb choice, has not interacted and has run no ticks |
| FaceAndInteract.NewUsing | Minebot/src/net/famzangl/minecraft/minebot/ai/task/FaceAndInteractTask.java:46-49 | the two-argument constructor keeps the given target and acceptance predicate and selects use-item (right click) |
| FaceAndInteract.IsFinished | Minebot/src/net/famzangl/minecraft/minebot/ai/task/FaceAndInteractTask.java:71-77 | for an item or experience-orb target, finished iff it overlaps the agent; for any other target, finished iff it has interacted |
| FaceAndInteract.InteractWithCurrent | Minebot/src/net/famzangl/minecraft/minebot/ai/task/FaceAndInteractTask.java:106-113 | interacting sets `interacted` and changes nothing else of the task; the verb is use-item iff `doRightClick`, otherwise attack |
| FaceAndInteract.RunTick | Minebot/src/net/famzangl/minecraft/minebot/ai/task/FaceAndInteractTask.java:80-99 | every tick adds one to `ticksRun`; it interacts iff more than two ticks have run and the look target is an entity the predicate accepts, and then issues no movement; otherwise it faces the preferred target, moves forward with magnitude 1 and jumps iff slow and more than eight ticks have run; `interacted` is never cleared; target, verb and acceptance predicate never change |
| FaceAndInteract.RunInvariants | Minebot/src/net/famzangl/minecraft/minebot/ai/task/FaceAndInteractTask.java:98 | over any run of ticks: `ticksRun` grows by exactly the number of ticks, target, verb and acceptance predicate stay fixed, `interacted` is monotone, and no interaction happens before the fourth tick of a fresh task |
| FaceAndInteract.FinishedStaysFinished | Minebot/src/net/famzangl/minecraft/minebot/ai/task/FaceAndInteractTask.java:72-77 | for a non-collectible target, once finished the task stays finished whatever happens next |
| FaceAndInteract.StuckPursuitJumps | Minebot/src/net/famzangl/minecraft/minebot/ai/task/FaceAndInteractTask.java:93-96 | while slow and looking at nothing acceptable, every tick walks toward the preferred target, and the k-th tick jumps exactly when more than eight ticks have run before it |
| FaceAndInteract.CollectibleAlreadyReached | Minebot/src/net/famzangl/minecraft/minebot/ai/task/FaceAndInteractTask.java:72-76 | an item or orb target already overlapping the agent is finished before any tick |

## Findings

| source | as written | input that shows it | evidently intended | confidence | as-written member | corrected member |
|---|---|---|---|---|---|---|
| Minebot/src/net/famzangl/minecraft/minebot/ai/task/inventory/MoveInInventoryTask.java:91-123 | the index checks accept `fromStack == toStack`. With an empty cursor and `0 < count <= missing`, the bulk loop picks the source stack up and puts it back on the same slot. The observed change is 0, so `missing` never falls and the loop condition stays true for ever | slot 0 holds 10 items of a 64-stack kind with limit 64, the cursor is empty, and 20 are requested from slot 0 to slot 0 | a request the loop cannot make progress on fails like a structurally invalid request instead of freezing the client | medium (depends on callers passing equal slots); not executed | MoveInInventoryProperties.SameSlotRequestSpins | MoveInInventory.RunTick |

`WouldSpin` names exactly the spinning requests: equal slots, an empty cursor, and
the loop condition true on entry (`SpinningRequestsNeverExit` and, for the converse, `NonSpinningRequestsExit`). There
`RunTick` reports the `SameSlotLoop` desync and changes nothing. Every other
same-slot request runs as in the code. With an empty cursor it moves nothing
and completes exactly when nothing is missing (`SameSlotTickMovesNothing`;
`SameSlotNothingRequested` is one instance). With a held stack the first
gesture merges that stack into the slot and picks all of it up, so the slot
is empty, the loop stops, and the tick reports a shortfall
(`SameSlotHeldCursorTick`). `Bulk` terminates on every input it is given,
by a measure over which of cursor, source and destination hold a stack.

## Left out

- Logging, `System.out.println` in `click`, and `toString`: they only serve diagnostics.
- Minecraft types, the window id and the network side of `windowClick`: the
  container is plain values and a click changes it at once, as the client does.
- Screens that are not containers: the code casts the current screen to a
  container screen, so any other open screen raises a cast error. The model's screen is either a container or none.
- Item kinds: every stack is assumed to hold the transferred item, so a
  left-click with a held stack always merges and never swaps.
- Slot capacity in clicks: putting a held stack down never overflows a slot. `limit` and `missing`
  keep the task's own transfers within capacity when the cursor starts empty (`EvaluateTransfer`).
- MoveInInventory.RunTick: where the code's bulk loop never returns (see Findings), the model reports `SameSlotLoop` instead of diverging.
- MoveInInventoryProperties.EvaluateTransfer: states the per-tick transfer amounts only for distinct slots and a tick that starts with an empty cursor; same-slot ticks are covered by `SameSlotTickMovesNothing` and `SameSlotHeldCursorTick`. With a held stack and distinct slots the code's outcome depends on that stack and is covered by `HeldCursorBulk`, `HeldCursorShortfall` and the general accounting in `Evaluate` and `Bulk`.
- MoveInInventory.RunTick: Java's 32-bit `int` arithmetic is not modelled.
  Counts, limits and requested amounts are unbounded integers, and overflow needs values far beyond any stack size.
- FaceAndInteract.RunTick: `ticksRun` is an unbounded integer; its 32-bit
  wrap-around after 2^31 ticks is not modelled.
- `getFromStack`, `getToStack` and `getMissingAmount` become fields of a
  `MoveSpec` record. They are constant by construction. `missingItems` is the `Shortfall` tier in the tick's report.
- The desync channel and the scheduler: a desync is a tag in the tick's report.
- Speed: `speed < 0.01` from the motion components is the boolean
  observation `slow`. The floating-point computation is not modelled.
- Bounding-box intersection and ray tracing: an `overlapping` flag and a
  look-target value stand for them.
- `aiHelper.face` aiming math: the pursue action only records which entity is faced.
- The `wasJumping` field: the code never uses it.
- `isFinished` idempotence needs no lemma: both `IsFinished` functions are
  pure, so repeated calls on the same task agree by construction.

=== FILE: face_and_interact.dfy ===
/**
 * The approach-and-interact task: walk toward a preferred entity and
 * interact (use item or attack) with the first acceptable entity the agent
 * looks at. Each tick's world inputs are reduced to a look target and a
 * "slow" flag; aiming and the speed computation are outside the model.
 */
module FaceAndInteract {

  datatype EntityKind = DroppedItem | ExperienceOrb | OtherEntity

  datatype Entity = Entity(id: int, kind: EntityKind)

  /** What the crosshair points at. */
  datatype LookTarget = NoHit | BlockHit | EntityHit(entity: Entity)

  /** `slow` stands for a horizontal speed below the stuck threshold. */
  datatype Observation = Observation(look: LookTarget, slow: bool)

  datatype Verb = UseItem | Attack

  /** The intent set for one tick: an interaction, or walking forward while facing `face`. */
  datatype Action = Interact(verb: Verb) | Pursue(face: Entity, moveForward: int, jump: bool)

  datatype Task = Task(
    preferred: Entity,
    alsoAccepted: Entity -> bool,
    doRightClick: bool,
    interacted: bool,
    ticksRun: int)

  function New(preferred: Entity, alsoAccepted: Entity -> bool, doRightClick: bool): (t: Task)
    ensures t.preferred == preferred && t.doRightClick == doRightClick
    ensures forall e :: t.alsoAccepted(e) == alsoAccepted(e)
    ensures !t.interacted && t.ticksRun == 0
  {
    Task(preferred, alsoAccepted, doRightClick, false, 0)
  }

  /** The two-argument constructor: interaction defaults to use-item. */
  function NewUsing(preferred: Entity, alsoAccepted: Entity -> bool): (t: Task)
    ensures t.preferred == preferred && t.doRightClick
    ensures forall e :: t.alsoAccepted(e) == alsoAccepted(e)
    ensures !t.interacted && t.ticksRun == 0
  {
    New(preferred, alsoAccepted, true)
  }

  /** Items and experience orbs are collected by walking into them. */
  predicate IsCollectible(e: Entity) {
    e.kind == DroppedItem || e.kind == ExperienceOrb
  }

  /** `overlapping` says whether the preferred entity's box intersects the agent's. */
  function IsFinished(t: Task, overlapping: bool): (r: bool)
    ensures IsCollectible(t.preferred) ==> (r <==> overlapping)
    ensures !IsCollectible(t.preferred) ==> (r <==> t.interacted)
  {
    if IsCollectible(t.preferred) then overlapping else t.interacted
  }

  predicate LooksAtAccepted(t: Task, obs: Observation) {
    obs.look.EntityHit? && t.alsoAccepted(obs.look.entity)
  }

  datatype Step = Step(task: Task, action: Action)

  function InteractWithCurrent(t: Task): (s: Step)
    ensures s.task.interacted
    ensures s.action.Interact? && (s.action.verb == UseItem <==> t.doRightClick)
    ensures s.task == t.(interacted := true)
  {
    Step(t.(interacted := true), Interact(if t.doRightClick then UseItem else Attack))
  }

  function RunTick(t: Task, obs: Observation): (s: Step)
    ensures s.task.ticksRun == t.ticksRun + 1
    ensures s.action.Interact? <==> t.ticksRun > 2 && LooksAtAccepted(t, obs)
    ensures s.action.Interact? ==> s.task.interacted && (s.action.verb == UseItem <==> t.doRightClick)
    ensures s.action.Pursue? ==>
      && s.action == Pursue(t.preferred, 1, obs.slow && t.ticksRun > 8)
      && s.task.interacted == t.interacted
    ensures t.interacted ==> s.task.interacted
    ensures s.task.preferred == t.preferred && s.task.doRightClick == t.doRightClick
    ensures forall e :: s.task.alsoAccepted(e) == t.alsoAccepted(e)
  {
    var step :=
      if t.ticksRun > 2 && LooksAtAccepted(t, obs) then InteractWithCurrent(t)
      else Step(t, Pursue(t.preferred, 1, obs.slow && t.ticksRun > 8));
    step.(task := step.task.(ticksRun := step.task.ticksRun + 1))
  }

  datatype Run = Run(task: Task, actions: seq<Action>)

  /** The task after one tick per observation, and the action of each tick. */
  function RunTicks(t: Task, obs: seq<Observation>): (r: Run)
    ensures |r.actions| == |obs|
    decreases |obs|
  {
    if |obs| == 0 then Run(t, [])
    else
      var s := RunTick(t, obs[0]);
      var rest := RunTicks(s.task, obs[1..]);
      Run(rest.task, [s.action] + rest.actions)
  }

  /**
   * Over any run: the tick counter advances by one per tick, the target and
   * verb never change, `interacted` is never cleared, and the k-th tick can
   * only interact once more than two ticks have run before it.
   */
  lemma {:induction false} RunInvariants(t: Task, obs: seq<Observation>)
    ensures var r := RunTicks(t, obs);
      && r.task.ticksRun == t.ticksRun + |obs|
      && r.task.preferred == t.preferred
      && r.task.doRightClick == t.doRightClick
      && (forall e :: r.task.alsoAccepted(e) == t.alsoAccepted(e))
      && (t.interacted ==> r.task.interacted)
      && forall k | 0 <= k < |obs| :: r.actions[k].Interact? ==> t.ticksRun + k > 2
    decreases |obs|
  {
    if |obs| > 0 {
      var s := RunTick(t, obs[0]);
      RunInvariants(s.task, obs[1..]);
      var rest := RunTicks(s.task, obs[1..]);
      assert forall k | 1 <= k < |obs| :: RunTicks(t, obs).actions[k] == rest.actions[k - 1];
    }
  }

  /** Once a non-collectible target's task has finished, further ticks keep it finished. */
  lemma FinishedStaysFinished(t: Task, obs: seq<Observation>, overlapping: bool)
    requires !IsCollectible(t.preferred) && IsFinished(t, overlapping)
    ensures IsFinished(RunTicks(t, obs).task, overlapping)
  {
    RunInvariants(t, obs);
  }

  /**
   * A task stuck behind an obstacle: while the agent is slow and looks at
   * nothing acceptable, every tick walks toward the preferred entity, and
   * it jumps exactly on the ticks after the eighth.
   */
  lemma {:induction false} StuckPursuitJumps(t: Task, obs: seq<Observation>)
    requires forall k | 0 <= k < |obs| :: obs[k].slow && !LooksAtAccepted(t, obs[k])
    ensures forall k | 0 <= k < |obs| ::
      RunTicks(t, obs).actions[k] == Pursue(t.preferred, 1, t.ticksRun + k > 8)
    decreases |obs|
  {
    if |obs| > 0 {
      var s := RunTick(t, obs[0]);
      StuckPursuitJumps(s.task, obs[1..]);
      var rest := RunTicks(s.task, obs[1..]);
      var r := RunTicks(t, obs);
      assert r.actions[0] == Pursue(t.preferred, 1, t.ticksRun > 8);
      forall k | 1 <= k < |obs|
        ensures r.actions[k] == Pursue(t.preferred, 1, t.ticksRun + k > 8)
      {
        assert r.actions[k] == rest.actions[k - 1];
      }
    }
  }

  /** A collectible target that already overlaps the agent needs no tick at all. */
  lemma CollectibleAlreadyReached(preferred: Entity, alsoAccepted: Entity -> bool, doRightClick: bool)
    requires IsCollectible(preferred)
    ensures IsFinished(New(preferred, alsoAccepted, doRightClick), true)
    ensures !IsFinished(New(preferred, alsoAccepted, doRightClick), false)
  {
  }
}

=== FILE: inventory.dfy ===
/**
 * An open container screen reduced to plain values: a sequence of slots, each
 * holding at most one item stack, and the stack held on the mouse cursor.
 * Clicks are given simple deterministic semantics. All stacks are taken to be
 * of one item kind, so placing a held stack always merges with the slot.
 */
module Inventory {
  import opened Wrappers

  datatype ItemStack = ItemStack(size: int, maxStackSize: int)

  datatype Slot = Slot(stack: Option<ItemStack>, slotLimit: int)

  datatype Container = Container(slots: seq<Slot>, cursor: Option<ItemStack>)

  /** Mouse button 0 (left) or 1 (right); the click mode is always "pick up". */
  datatype Button = Left | Right

  datatype Click = Click(slot: int, button: Button)

  /** Java's `n / 2` on an int, which rounds toward zero. */
  function JavaHalf(n: int): (h: int)
    ensures n >= 0 ==> 0 <= n - 2 * h <= 1
    ensures n < 0 ==> -1 <= n - 2 * h <= 0
  {
    if n >= 0 then n / 2 else -((-n) / 2)
  }

  /** The number of items in a slot: zero when it holds no stack. */
  function ContentCount(s: Slot): (r: int)
    ensures s.stack.None? ==> r == 0
    ensures s.stack.Some? ==> r == s.stack.value.size
    ensures r != 0 ==> s.stack.Some?
  {
    match s.stack
    case None => 0
    case Some(k) => k.size
  }

  function Count(c: Container, i: int): int
    requires 0 <= i < |c.slots|
  {
    ContentCount(c.slots[i])
  }

  /** The number of items on the cursor. */
  function HeldCount(c: Container): int {
    match c.cursor
    case None => 0
    case Some(h) => h.size
  }

  /** A stack of `n` items shaped like `k`; a stack of no items is no stack. */
  function Resize(k: ItemStack, n: int): (r: Option<ItemStack>)
    ensures r.None? <==> n == 0
    ensures r.Some? ==> r.value.size == n
  {
    if n != 0 then Some(k.(size := n)) else None
  }

  /** `s` with `n` more items of the kind `like`. */
  function AddItems(s: Slot, n: int, like: ItemStack): (r: Slot)
    ensures r.stack.Some?
    ensures ContentCount(r) == ContentCount(s) + n
    ensures r.slotLimit == s.slotLimit
  {
    match s.stack
    case None => s.(stack := Some(like.(size := n)))
    case Some(k) => s.(stack := Some(k.(size := k.size + n)))
  }

  /** No stack, or a stack whose max stack size is `m`. */
  predicate MaxSizeIs(o: Option<ItemStack>, m: int) {
    o.None? || o.value.maxStackSize == m
  }

  /** Left-click: an empty cursor takes the whole stack, a held stack is put down whole. */
  function LeftClick(c: Container, i: int): (r: Container)
    requires 0 <= i < |c.slots|
    ensures |r.slots| == |c.slots|
    ensures forall j | 0 <= j < |c.slots| && j != i :: r.slots[j] == c.slots[j]
    ensures c.cursor.None? ==> r.cursor == c.slots[i].stack && r.slots[i].stack.None?
    ensures c.cursor.Some? ==> r.cursor.None? && r.slots[i].stack.Some?
    ensures Count(r, i) + HeldCount(r) == Count(c, i) + HeldCount(c)
    ensures r.slots[i].slotLimit == c.slots[i].slotLimit
    ensures c.slots[i].stack.Some? ==> MaxSizeIs(r.slots[i].stack, c.slots[i].stack.value.maxStackSize)
    ensures c.slots[i].stack.None? && c.cursor.Some? ==> MaxSizeIs(r.slots[i].stack, c.cursor.value.maxStackSize)
  {
    match c.cursor
    case None => c.(slots := c.slots[i := c.slots[i].(stack := None)], cursor := c.slots[i].stack)
    case Some(h) => c.(slots := c.slots[i := AddItems(c.slots[i], h.size, h)], cursor := None)
  }

  /**
   * Right-click: an empty cursor takes the larger half of the stack (the slot
   * keeps `n / 2`), a held stack puts down a single item.
   */
  function RightClick(c: Container, i: int): (r: Container)
    requires 0 <= i < |c.slots|
    ensures |r.slots| == |c.slots|
    ensures forall j | 0 <= j < |c.slots| && j != i :: r.slots[j] == c.slots[j]
    ensures c.cursor.None? ==> Count(r, i) == JavaHalf(Count(c, i))
    ensures c.cursor.Some? ==> Count(r, i) == Count(c, i) + 1 && HeldCount(r) == HeldCount(c) - 1
    ensures Count(r, i) + HeldCount(r) == Count(c, i) + HeldCount(c)
    ensures r.slots[i].slotLimit == c.slots[i].slotLimit
    ensures c.slots[i].stack.Some? ==> MaxSizeIs(r.slots[i].stack, c.slots[i].stack.value.maxStackSize)
    ensures c.slots[i].stack.None? && c.cursor.Some? ==> MaxSizeIs(r.slots[i].stack, c.cursor.value.maxStackSize)
    ensures c.cursor.Some? ==> MaxSizeIs(r.cursor, c.cursor.value.maxStackSize)
    ensures c.cursor.None? && c.slots[i].stack.Some? ==> MaxSizeIs(r.cursor, c.slots[i].stack.value.maxStackSize)
    ensures c.cursor.None? && c.slots[i].stack.None? ==> r == c
    ensures r.cursor.None? <==> HeldCount(r) == 0
    ensures c.cursor.None? ==> (r.slots[i].stack.None? <==> Count(r, i) == 0)
  {
    match c.cursor
    case None =>
      (match c.slots[i].stack
       case None => c
       case Some(k) =>
         var kept := JavaHalf(k.size);
         c.(slots := c.slots[i := c.slots[i].(stack := Resize(k, kept))],
            cursor := Resize(k, k.size - kept)))
    case Some(h) =>
      c.(slots := c.slots[i := AddItems(c.slots[i], 1, h)], cursor := Resize(h, h.size - 1))
  }

  function Apply(c: Container, k: Click): (r: Container)
    requires 0 <= k.slot < |c.slots|
  {
    if k.button == Left then LeftClick(c, k.slot) else RightClick(c, k.slot)
  }

  predicate ClicksWithin(n: int, ks: seq<Click>) {
    forall j | 0 <= j < |ks| :: 0 <= ks[j].slot < n
  }

  function SumCounts(s: seq<Slot>): int {
    if |s| == 0 then 0 else ContentCount(s[0]) + SumCounts(s[1..])
  }

  /** Every item in the container, in the slots and on the cursor. */
  function Total(c: Container): int {
    SumCounts(c.slots) + HeldCount(c)
  }

  lemma {:induction false} SumCountsUpdate(s: seq<Slot>, i: int, x: Slot)
    requires 0 <= i < |s|
    ensures SumCounts(s[i := x]) == SumCounts(s) - ContentCount(s[i]) + ContentCount(x)
  {
    if i == 0 {
      assert s[i := x][1..] == s[1..];
    } else {
      assert s[i := x][1..] == s[1..][i - 1 := x];
      SumCountsUpdate(s[1..], i - 1, x);
    }
  }

  /** A click moves items between one slot and the cursor and creates or destroys none. */
  lemma ClickConservesItems(c: Container, k: Click)
    requires 0 <= k.slot < |c.slots|
    ensures Total(Apply(c, k)) == Total(c)
    ensures |Apply(c, k).slots| == |c.slots|
  {
    var r := Apply(c, k);
    assert r.slots == c.slots[k.slot := r.slots[k.slot]];
    SumCountsUpdate(c.slots, k.slot, r.slots[k.slot]);
  }

  /** The container after the clicks `ks`, issued in order. */
  function ApplyClicks(c: Container, ks: seq<Click>): (r: Container)
    requires ClicksWithin(|c.slots|, ks)
    ensures |r.slots| == |c.slots|
    ensures Total(r) == Total(c)
    decreases |ks|
  {
    if |ks| == 0 then c
    else
      ClickConservesItems(c, ks[0]);
      ApplyClicks(Apply(c, ks[0]), ks[1..])
  }

  lemma ApplyTwoClicks(c: Container, k1: Click, k2: Click)
    requires 0 <= k1.slot < |c.slots| && 0 <= k2.slot < |c.slots|
    ensures ClicksWithin(|c.slots|, [k1, k2])
    ensures ApplyClicks(c, [k1, k2]) == Apply(Apply(c, k1), k2)
  {
    var c1 := Apply(c, k1);
    assert [k1, k2][1..] == [k2];
    assert ApplyClicks(c, [k1, k2]) == ApplyClicks(c1, [k2]);
    assert [k2][1..] == [];
    assert ApplyClicks(c1, [k2]) == ApplyClicks(Apply(c1, k2), []);
  }

  lemma {:induction false} ApplyClicksAppend(c: Container, a: seq<Click>, b: seq<Click>)
    requires ClicksWithin(|c.slots|, a) && ClicksWithin(|c.slots|, b)
    ensures ClicksWithin(|c.slots|, a + b)
    ensures ApplyClicks(c, a + b) == ApplyClicks(ApplyClicks(c, a), b)
    decreases |a|
  {
    if |a| == 0 {
      assert a + b == b;
    } else {
      assert (a + b)[1..] == a[1..] + b;
      ApplyClicksAppend(Apply(c, a[0]), a[1..], b);
    }
  }
}

=== FILE: move_in_inventory.dfy ===
/**
 * The inventory-transfer task: move an exact number of items from one slot
 * of the open container to another, using whole-stack, half-stack and
 * one-item-at-a-time gestures, and wait a fixed number of ticks after every
 * evaluated tick.
 */
module MoveInInventory {
  import opened Wrappers
  import opened Inventory

  /** Ticks to wait after every evaluated tick. */
  const DELAY: int := 5

  /**
   * The constant parameters a concrete transfer supplies: source slot,
   * destination slot, and how many items are still missing given the
   * destination's current count.
   */
  datatype MoveSpec = MoveSpec(fromStack: int, toStack: int, missingAmount: int -> int)

  datatype MoveState = MoveState(moveDone: bool, delay: int)

  /** A freshly created task. */
  const Initial: MoveState := MoveState(false, 0)

  /**
   * `SameSlotLoop` is reported where the code's bulk loop would never
   * return: a move from a slot onto itself that the loop would enter.
   */
  datatype Desync = ContainerNotOpen | InvalidMoveSpecification | NothingInSourceSlot | SameSlotLoop

  /** The branch taken after the bulk phase; `Shortfall` is the missing-items notification. */
  datatype Tier = HalfStack | PartialStack | Shortfall(residual: int) | Done

  /** What an evaluated tick computed (the values the code keeps in locals). */
  datatype Evaluation = Evaluation(
    limit: int,
    initialMissing: int,
    bulkMoves: nat,
    bulkSource: int,
    bulkMissing: int,
    tier: Tier,
    missing: int)

  datatype Report = Waited | Failed(reason: Desync) | Evaluated(eval: Evaluation)

  datatype TickResult = TickResult(
    state: MoveState,
    screen: Option<Container>,
    clicks: seq<Click>,
    report: Report)

  /** The task is finished exactly when the transfer was marked done. */
  function IsFinished(st: MoveState): (r: bool)
    ensures r == st.moveDone
  {
    st.moveDone
  }

  function Min(a: int, b: int): (m: int)
    ensures m <= a && m <= b && (m == a || m == b)
  {
    if a <= b then a else b
  }

  /** Both indices address a slot of a container with `n` slots. */
  predicate IndicesInRange(spec: MoveSpec, n: int) {
    0 <= spec.fromStack < n && 0 <= spec.toStack < n
  }

  /** The structural checks made before any click, in the order the task makes them. */
  function CheckMove(spec: MoveSpec, c: Container): (r: Option<Desync>)
    ensures r == Some(InvalidMoveSpecification) <==> !IndicesInRange(spec, |c.slots|)
    ensures r == Some(NothingInSourceSlot) <==>
      IndicesInRange(spec, |c.slots|) && Count(c, spec.fromStack) <= 0
    ensures r.None? <==> IndicesInRange(spec, |c.slots|) && Count(c, spec.fromStack) > 0
    ensures r != Some(ContainerNotOpen) && r != Some(SameSlotLoop)
  {
    if !IndicesInRange(spec, |c.slots|) then Some(InvalidMoveSpecification)
    else if Count(c, spec.fromStack) <= 0 then Some(NothingInSourceSlot)
    else None
  }

  /** The smaller of the destination's slot limit and the source stack's max size. */
  function Limit(spec: MoveSpec, c: Container): (r: int)
    requires CheckMove(spec, c).None?
    ensures r <= c.slots[spec.toStack].slotLimit
    ensures r <= c.slots[spec.fromStack].stack.value.maxStackSize
    ensures r == c.slots[spec.toStack].slotLimit || r == c.slots[spec.fromStack].stack.value.maxStackSize
  {
    Min(c.slots[spec.toStack].slotLimit, c.slots[spec.fromStack].stack.value.maxStackSize)
  }

  /** The requested amount, cut down so that the destination stays within `Limit`. */
  function InitialMissing(spec: MoveSpec, c: Container): (r: int)
    requires CheckMove(spec, c).None?
    ensures r <= spec.missingAmount(Count(c, spec.toStack))
    ensures r <= Limit(spec, c) - Count(c, spec.toStack)
    ensures r == spec.missingAmount(Count(c, spec.toStack)) || r == Limit(spec, c) - Count(c, spec.toStack)
  {
    Min(spec.missingAmount(Count(c, spec.toStack)), Limit(spec, c) - Count(c, spec.toStack))
  }

  /** A click sequence, the container after it, and the destination's observed change. */
  datatype Gesture = Gesture(after: Container, clicks: seq<Click>, moved: int)

  /** The button that picks up a whole stack (left) or its larger half (right). */
  function PickUpButton(rightClickOnStart: bool): Button {
    if rightClickOnStart then Right else Left
  }

  /**
   * moveAll (`rightClickOnStart` false) or moveHalf (true): a click on the
   * source, then a left-click on the destination.
   */
  function MoveStack(c: Container, from: int, to: int, rightClickOnStart: bool): (g: Gesture)
    requires 0 <= from < |c.slots| && 0 <= to < |c.slots|
    ensures g.clicks == [Click(from, PickUpButton(rightClickOnStart)), Click(to, Left)]
    ensures ClicksWithin(|c.slots|, g.clicks) && g.after == ApplyClicks(c, g.clicks)
    ensures g.moved == Count(g.after, to) - Count(c, to)
  {
    var clicks := [Click(from, PickUpButton(rightClickOnStart)), Click(to, Left)];
    var after := ApplyClicks(c, clicks);
    Gesture(after, clicks, Count(after, to) - Count(c, to))
  }

  /** `n` copies of `k`; none when `n` is not positive, as a Java counting loop. */
  function Repeat(k: Click, n: int): (r: seq<Click>)
    ensures |r| == if n <= 0 then 0 else n
    ensures forall j | 0 <= j < |r| :: r[j] == k
    decreases n
  {
    if n <= 0 then [] else [k] + Repeat(k, n - 1)
  }

  /**
   * Partial gesture: pick up the source stack, put `count` single items on
   * the destination, and put the rest back on the source.
   */
  function MoveStackPart(c: Container, from: int, to: int, count: int): (g: Gesture)
    requires 0 <= from < |c.slots| && 0 <= to < |c.slots|
    ensures g.clicks == [Click(from, Left)] + Repeat(Click(to, Right), count) + [Click(from, Left)]
    ensures ClicksWithin(|c.slots|, g.clicks) && g.after == ApplyClicks(c, g.clicks)
    ensures g.moved == Count(g.after, to) - Count(c, to)
  {
    var clicks := [Click(from, Left)] + Repeat(Click(to, Right), count) + [Click(from, Left)];
    var after := ApplyClicks(c, clicks);
    Gesture(after, clicks, Count(after, to) - Count(c, to))
  }

  /** The bulk loop's condition. */
  predicate BulkContinues(c: Container, from: int, missing: int)
    requires 0 <= from < |c.slots|
  {
    0 < Count(c, from) <= missing
  }

  function Present(o: Option<ItemStack>): nat {
    if o.Some? then 1 else 0
  }

  /** Termination measure of the bulk loop. */
  function BulkWeight(c: Container, from: int, to: int): nat
    requires 0 <= from < |c.slots| && 0 <= to < |c.slots|
  {
    Present(c.cursor) + 2 * Present(c.slots[from].stack) + Present(c.slots[to].stack)
  }

  /**
   * A whole-stack gesture made while the source holds a stack lowers the
   * weight, unless source and destination coincide and the cursor is empty.
   * With distinct slots and an empty cursor the source is emptied; with a
   * held stack the destination's stack moves to the cursor, which for a
   * single slot leaves that slot empty.
   */
  lemma MoveAllLowersWeight(c: Container, from: int, to: int)
    requires 0 <= from < |c.slots| && 0 <= to < |c.slots|
    requires from != to || c.cursor.Some?
    requires c.slots[from].stack.Some?
    ensures BulkWeight(MoveStack(c, from, to, false).after, from, to) < BulkWeight(c, from, to)
    ensures from == to ==> Count(MoveStack(c, from, to, false).after, from) == 0
  {
    ApplyTwoClicks(c, Click(from, Left), Click(to, Left));
  }

  datatype BulkResult = BulkResult(after: Container, clicks: seq<Click>, moves: nat, missing: int)

  /** Alternating left-clicks on the source and the destination, `moves` times. */
  predicate WholeStackClicks(ks: seq<Click>, from: int, to: int, moves: nat) {
    && |ks| == 2 * moves
    && forall j | 0 <= j < moves :: ks[2 * j] == Click(from, Left) && ks[2 * j + 1] == Click(to, Left)
  }

  lemma WholeStackClicksPrepend(ks: seq<Click>, from: int, to: int, moves: nat)
    requires WholeStackClicks(ks, from, to, moves)
    ensures WholeStackClicks([Click(from, Left), Click(to, Left)] + ks, from, to, moves + 1)
  {
    var r := [Click(from, Left), Click(to, Left)] + ks;
    forall j | 1 <= j < moves + 1
      ensures r[2 * j] == Click(from, Left) && r[2 * j + 1] == Click(to, Left)
    {
      assert r[2 * j] == ks[2 * (j - 1)];
      assert r[2 * j + 1] == ks[2 * (j - 1) + 1];
    }
  }

  /**
   * The loop condition held before gesture `k` (counting from 0) of the
   * whole-stack clicks `ks`, with `missing` lowered by the destination's
   * change over the gestures before it.
   */
  predicate ContinuesBeforeGesture(c: Container, from: int, to: int, missing: int, ks: seq<Click>, k: nat)
    requires 0 <= from < |c.slots| && 0 <= to < |c.slots|
    requires ClicksWithin(|c.slots|, ks) && 2 * k <= |ks|
  {
    var p := ApplyClicks(c, ks[..2 * k]);
    BulkContinues(p, from, missing - (Count(p, to) - Count(c, to)))
  }

  /** What a run of the bulk loop from `c`, with `missing` still missing, has done once it stops. */
  predicate BulkOutcome(c: Container, from: int, to: int, missing: int, r: BulkResult)
    requires 0 <= from < |c.slots| && 0 <= to < |c.slots|
  {
    && ClicksWithin(|c.slots|, r.clicks) && r.after == ApplyClicks(c, r.clicks)
    && WholeStackClicks(r.clicks, from, to, r.moves)
    && (forall k: nat | k < r.moves :: ContinuesBeforeGesture(c, from, to, missing, r.clicks, k))
    && !BulkContinues(r.after, from, r.missing)
    && r.missing == missing - (Count(r.after, to) - Count(c, to))
  }

  /** Gesture `j + 1` after a leading gesture `g` is gesture `j` of the run that follows it. */
  lemma ContinuesBeforeShift(c: Container, from: int, to: int, missing: int, g: Gesture, ks: seq<Click>, j: nat)
    requires 0 <= from < |c.slots| && 0 <= to < |c.slots|
    requires g == MoveStack(c, from, to, false)
    requires ClicksWithin(|c.slots|, ks) && 2 * j <= |ks|
    requires ContinuesBeforeGesture(g.after, from, to, missing - g.moved, ks, j)
    ensures ClicksWithin(|c.slots|, g.clicks + ks)
    ensures ContinuesBeforeGesture(c, from, to, missing, g.clicks + ks, j + 1)
  {
    ApplyClicksAppend(c, g.clicks, ks);
    assert (g.clicks + ks)[..2 * (j + 1)] == g.clicks + ks[..2 * j];
    ApplyClicksAppend(c, g.clicks, ks[..2 * j]);
  }

  /** A gesture made while the condition held, followed by a finished run, is a finished run. */
  lemma BulkPrepend(c: Container, from: int, to: int, missing: int, g: Gesture, rest: BulkResult)
    requires 0 <= from < |c.slots| && 0 <= to < |c.slots|
    requires BulkContinues(c, from, missing) && g == MoveStack(c, from, to, false)
    requires BulkOutcome(g.after, from, to, missing - g.moved, rest)
    ensures BulkOutcome(c, from, to, missing, BulkResult(rest.after, g.clicks + rest.clicks, rest.moves + 1, rest.missing))
  {
    var ks := g.clicks + rest.clicks;
    ApplyClicksAppend(c, g.clicks, rest.clicks);
    WholeStackClicksPrepend(rest.clicks, from, to, rest.moves);
    forall k: nat | k < rest.moves + 1
      ensures ContinuesBeforeGesture(c, from, to, missing, ks, k)
    {
      if k == 0 {
        assert ks[..0] == [];
      } else {
        ContinuesBeforeShift(c, from, to, missing, g, rest.clicks, k - 1);
      }
    }
  }

  /** Clicks appended after the gestures leave the condition before each of them as it was. */
  lemma ContinuesBeforeAppend(c: Container, from: int, to: int, missing: int, ks: seq<Click>, more: seq<Click>, n: nat)
    requires 0 <= from < |c.slots| && 0 <= to < |c.slots|
    requires ClicksWithin(|c.slots|, ks) && ClicksWithin(|c.slots|, ks + more) && 2 * n <= |ks|
    requires forall k: nat | k < n :: ContinuesBeforeGesture(c, from, to, missing, ks, k)
    ensures forall k: nat | k < n :: ContinuesBeforeGesture(c, from, to, missing, ks + more, k)
  {
    forall k: nat | k < n
      ensures ContinuesBeforeGesture(c, from, to, missing, ks + more, k)
    {
      assert (ks + more)[..2 * k] == ks[..2 * k];
      assert ContinuesBeforeGesture(c, from, to, missing, ks, k);
    }
  }

  /**
   * The bulk loop: move whole stacks while the source holds some items and
   * no more than are still missing, each time lowering `missing` by the
   * destination's observed change. The one case where it never ends (a
   * single slot, an empty cursor, and the condition true) is excluded.
   */
  function BulkLoop(c: Container, from: int, to: int, missing: int): (r: BulkResult)
    requires 0 <= from < |c.slots| && 0 <= to < |c.slots|
    requires from != to || c.cursor.Some? || !BulkContinues(c, from, missing)
    ensures |r.after.slots| == |c.slots|
    decreases BulkWeight(c, from, to)
  {
    if !BulkContinues(c, from, missing) then BulkResult(c, [], 0, missing)
    else
      var g := MoveStack(c, from, to, false);
      MoveAllLowersWeight(c, from, to);
      var rest := BulkLoop(g.after, from, to, missing - g.moved);
      BulkResult(rest.after, g.clicks + rest.clicks, rest.moves + 1, rest.missing)
  }

  lemma {:induction false} BulkLoopOutcome(c: Container, from: int, to: int, missing: int)
    requires 0 <= from < |c.slots| && 0 <= to < |c.slots|
    requires from != to || c.cursor.Some? || !BulkContinues(c, from, missing)
    ensures BulkOutcome(c, from, to, missing, BulkLoop(c, from, to, missing))
    ensures BulkLoop(c, from, to, missing).moves == 0 <==> !BulkContinues(c, from, missing)
    decreases BulkWeight(c, from, to)
  {
    if BulkContinues(c, from, missing) {
      var g := MoveStack(c, from, to, false);
      MoveAllLowersWeight(c, from, to);
      var rest := BulkLoop(g.after, from, to, missing - g.moved);
      assert BulkLoop(c, from, to, missing) == BulkResult(rest.after, g.clicks + rest.clicks, rest.moves + 1, rest.missing);
      BulkLoopOutcome(g.after, from, to, missing - g.moved);
      BulkPrepend(c, from, to, missing, g, rest);
    } else {
      assert BulkLoop(c, from, to, missing) == BulkResult(c, [], 0, missing);
    }
  }

  /**
   * The bulk loop with what it promises: it stops the first time its
   * condition fails, and every gesture it made was made while the condition
   * held; the clicks are one left-click pair per gesture, and `missing` fell
   * by exactly the destination's total observed change.
   */
  function Bulk(c: Container, from: int, to: int, missing: int): (r: BulkResult)
    requires 0 <= from < |c.slots| && 0 <= to < |c.slots|
    requires from != to || c.cursor.Some? || !BulkContinues(c, from, missing)
    ensures |r.after.slots| == |c.slots|
    ensures ClicksWithin(|c.slots|, r.clicks) && r.after == ApplyClicks(c, r.clicks)
    ensures WholeStackClicks(r.clicks, from, to, r.moves)
    ensures forall k: nat | k < r.moves :: ContinuesBeforeGesture(c, from, to, missing, r.clicks, k)
    ensures !BulkContinues(r.after, from, r.missing)
    ensures r.missing == missing - (Count(r.after, to) - Count(c, to))
    ensures r.moves == 0 <==> !BulkContinues(c, from, missing)
  {
    BulkLoopOutcome(c, from, to, missing);
    BulkLoop(c, from, to, missing)
  }

  /** The half tier's condition: the larger half of the source fits in `missing`. */
  predicate HalfApplies(source: int, missing: int) {
    source - JavaHalf(source) <= missing && source > 0
  }

  datatype EvalResult = EvalResult(after: Container, clicks: seq<Click>, eval: Evaluation)

  /**
   * The code's bulk loop would never return: source and destination are
   * one slot, the cursor is empty, and the loop condition holds on entry.
   */
  predicate WouldSpin(spec: MoveSpec, c: Container)
    requires CheckMove(spec, c).None?
  {
    spec.fromStack == spec.toStack && c.cursor.None? && BulkContinues(c, spec.fromStack, InitialMissing(spec, c))
  }

  /** Everything an evaluated tick does once the structural checks passed. */
  function Evaluate(spec: MoveSpec, c: Container): (r: EvalResult)
    requires CheckMove(spec, c).None? && !WouldSpin(spec, c)
    ensures r.eval.limit == Limit(spec, c) && r.eval.initialMissing == InitialMissing(spec, c)
    ensures ClicksWithin(|c.slots|, r.clicks) && r.after == ApplyClicks(c, r.clicks)
    ensures 2 * r.eval.bulkMoves <= |r.clicks|
    ensures WholeStackClicks(r.clicks[..2 * r.eval.bulkMoves], spec.fromStack, spec.toStack, r.eval.bulkMoves)
    ensures forall k: nat | k < r.eval.bulkMoves ::
      ContinuesBeforeGesture(c, spec.fromStack, spec.toStack, r.eval.initialMissing, r.clicks, k)
    ensures var b := ApplyClicks(c, r.clicks[..2 * r.eval.bulkMoves]);
      && r.eval.bulkSource == Count(b, spec.fromStack)
      && r.eval.bulkMissing == r.eval.initialMissing - (Count(b, spec.toStack) - Count(c, spec.toStack))
    ensures r.eval.bulkSource <= 0 || r.eval.bulkSource > r.eval.bulkMissing
    ensures r.eval.bulkMoves == 0 <==> Count(c, spec.fromStack) > r.eval.initialMissing
    ensures r.eval.missing == r.eval.initialMissing - (Count(r.after, spec.toStack) - Count(c, spec.toStack))
    ensures var e := r.eval;
      && (e.tier.HalfStack? <==> HalfApplies(e.bulkSource, e.bulkMissing))
      && (e.tier.PartialStack? <==> !HalfApplies(e.bulkSource, e.bulkMissing) && e.bulkMissing > 0 && e.bulkSource > 0)
      && (e.tier.Shortfall? <==> e.bulkMissing > 0 && e.bulkSource <= 0)
      && (e.tier.Shortfall? ==> e.tier.residual == e.bulkMissing == e.missing)
      && (e.tier.Done? <==> e.bulkMissing <= 0)
      && (e.tier.Done? ==> e.missing == e.bulkMissing)
    ensures var e, from, to := r.eval, spec.fromStack, spec.toStack;
      && (e.tier.HalfStack? ==> r.clicks[2 * e.bulkMoves..] == [Click(from, Right), Click(to, Left)])
      && (e.tier.PartialStack? ==>
            r.clicks[2 * e.bulkMoves..] == [Click(from, Left)] + Repeat(Click(to, Right), e.bulkMissing) + [Click(from, Left)])
      && (e.tier.Shortfall? || e.tier.Done? ==> |r.clicks| == 2 * e.bulkMoves)
  {
    var from, to := spec.fromStack, spec.toStack;
    var limit := Limit(spec, c);
    var missing := InitialMissing(spec, c);
    var b := Bulk(c, from, to, missing);
    var s, m := Count(b.after, from), b.missing;
    var (g, tier) :=
      if HalfApplies(s, m) then (MoveStack(b.after, from, to, true), HalfStack)
      else if m > 0 && s > 0 then (MoveStackPart(b.after, from, to, m), PartialStack)
      else if m > 0 then (Gesture(b.after, [], 0), Shortfall(m))
      else (Gesture(b.after, [], 0), Done);
    ApplyClicksAppend(c, b.clicks, g.clicks);
    var clicks := b.clicks + g.clicks;
    assert clicks[..2 * b.moves] == b.clicks && clicks[2 * b.moves..] == g.clicks;
    ContinuesBeforeAppend(c, from, to, missing, b.clicks, g.clicks, b.moves);
    EvalResult(g.after, clicks, Evaluation(limit, missing, b.moves, s, m, tier, m - g.moved))
  }

  /**
   * One tick of the task against the currently open container, if any. It
   * follows MoveInInventoryTask except where the code's bulk loop would never
   * return; there it reports `SameSlotLoop` and changes nothing.
   */
  function RunTick(spec: MoveSpec, st: MoveState, screen: Option<Container>): (r: TickResult)
    ensures screen.None? ==> r == TickResult(st, None, [], Failed(ContainerNotOpen))
    ensures screen.Some? && st.delay > 0 ==>
      r == TickResult(st.(delay := st.delay - 1), screen, [], Waited)
    ensures screen.Some? && st.delay <= 0 && CheckMove(spec, screen.value).Some? ==>
      r == TickResult(st, screen, [], Failed(CheckMove(spec, screen.value).value))
    ensures screen.Some? && st.delay <= 0 && CheckMove(spec, screen.value).None? && WouldSpin(spec, screen.value) ==>
      r == TickResult(st, screen, [], Failed(SameSlotLoop))
    ensures r.report.Evaluated? <==>
      screen.Some? && st.delay <= 0 && CheckMove(spec, screen.value).None? && !WouldSpin(spec, screen.value)
    ensures r.report.Evaluated? ==>
      && r.state.delay == DELAY
      && r.report.eval == Evaluate(spec, screen.value).eval
      && r.clicks == Evaluate(spec, screen.value).clicks
      && r.screen == Some(Evaluate(spec, screen.value).after)
      && ClicksWithin(|screen.value.slots|, r.clicks)
      && r.screen.value == ApplyClicks(screen.value, r.clicks)
    ensures !r.report.Evaluated? ==> r.clicks == [] && r.screen == screen
    ensures IsFinished(r.state) <==> IsFinished(st) || (r.report.Evaluated? && r.report.eval.tier.Done?)
  {
    match screen
    case None => TickResult(st, None, [], Failed(ContainerNotOpen))
    case Some(c) =>
      if st.delay > 0 then TickResult(st.(delay := st.delay - 1), screen, [], Waited)
      else match CheckMove(spec, c)
        case Some(reason) => TickResult(st, screen, [], Failed(reason))
        case None =>
          if WouldSpin(spec, c) then TickResult(st, screen, [], Failed(SameSlotLoop))
          else
            var e := Evaluate(spec, c);
            var done := st.moveDone || e.eval.tier.Done?;
            TickResult(MoveState(done, DELAY), Some(e.after), e.clicks, Evaluated(e.eval))
  }

  /**
   * Maps a player-inventory index to the slot number in the player's own
   * container screen: the hotbar 0..8 sits after the 27 main slots.
   */
  function ConvertPlayerInventorySlot(inventorySlot: int): (r: int)
    ensures 0 <= inventorySlot <= 8 ==> 27 <= r <= 35
    ensures 9 <= inventorySlot <= 35 ==> 0 <= r <= 26
    ensures 0 <= inventorySlot <= 35 ==> PlayerInventorySlot(r) == inventorySlot
  {
    if inventorySlot < 9 then inventorySlot + 9 * 3 else inventorySlot - 9
  }

  /** The inverse mapping, from container slot number back to inventory index. */
  function PlayerInventorySlot(containerSlot: int): (r: int)
    ensures 0 <= containerSlot <= 35 ==> 0 <= r <= 35
  {
    if containerSlot >= 27 then containerSlot - 27 else containerSlot + 9
  }
}

=== FILE: move_properties.dfy ===
/**
 * Properties of the inventory-transfer task that relate several calls:
 * what each gesture does when the cursor starts empty, how much one
 * evaluated tick moves, the documented scenarios, pacing over several
 * ticks, and the same-slot defect of the unguarded bulk loop.
 */
module MoveInInventoryProperties {
  import opened Wrappers
  import opened Inventory
  import opened MoveInInventory

  /** Distinct source and destination slots, both in range: the setting of the scenarios below. */
  predicate DistinctSlotsInRange(spec: MoveSpec, n: int) {
    IndicesInRange(spec, n) && spec.fromStack != spec.toStack
  }

  /** `r` differs from `c` at most in slots `from` and `to`. */
  predicate OthersUnchanged(c: Container, r: Container, from: int, to: int) {
    && |r.slots| == |c.slots|
    && forall j | 0 <= j < |c.slots| && j != from && j != to :: r.slots[j] == c.slots[j]
  }

  /** With an empty cursor, a whole-stack gesture moves the entire source stack. */
  lemma WholeStackGesture(c: Container, from: int, to: int)
    requires 0 <= from < |c.slots| && 0 <= to < |c.slots| && from != to
    requires c.cursor.None? && Count(c, from) > 0
    ensures var g := MoveStack(c, from, to, false);
      && g.after.cursor.None?
      && Count(g.after, from) == 0
      && g.moved == Count(c, from)
      && OthersUnchanged(c, g.after, from, to)
  {
    ApplyTwoClicks(c, Click(from, Left), Click(to, Left));
  }

  /** With an empty cursor, a half-stack gesture moves the larger half of the source. */
  lemma HalfStackGesture(c: Container, from: int, to: int)
    requires 0 <= from < |c.slots| && 0 <= to < |c.slots| && from != to
    requires c.cursor.None? && Count(c, from) > 0
    ensures var g := MoveStack(c, from, to, true);
      && g.after.cursor.None?
      && Count(g.after, from) == JavaHalf(Count(c, from))
      && g.moved == Count(c, from) - JavaHalf(Count(c, from))
      && OthersUnchanged(c, g.after, from, to)
  {
    ApplyTwoClicks(c, Click(from, Right), Click(to, Left));
  }

  /** Right-clicking `n` times with more than `n` items held puts exactly `n` on the slot. */
  lemma {:induction false} PlaceSingles(c: Container, to: int, n: nat)
    requires 0 <= to < |c.slots|
    requires c.cursor.Some? && c.cursor.value.size > n
    ensures ClicksWithin(|c.slots|, Repeat(Click(to, Right), n))
    ensures var r := ApplyClicks(c, Repeat(Click(to, Right), n));
      && r.cursor.Some?
      && HeldCount(r) == HeldCount(c) - n
      && Count(r, to) == Count(c, to) + n
      && OthersUnchanged(c, r, to, to)
    decreases n
  {
    var ks := Repeat(Click(to, Right), n);
    if n > 0 {
      var c1 := Apply(c, Click(to, Right));
      assert ks[1..] == Repeat(Click(to, Right), n - 1);
      assert ApplyClicks(c, ks) == ApplyClicks(c1, ks[1..]);
      PlaceSingles(c1, to, n - 1);
    }
  }

  /**
   * With an empty cursor and fewer than the source slot's items requested, the
   * partial gesture puts exactly `n` items on the destination and the rest
   * back on the source.
   */
  lemma PartialGesture(c: Container, from: int, to: int, n: nat)
    requires 0 <= from < |c.slots| && 0 <= to < |c.slots| && from != to
    requires c.cursor.None? && n < Count(c, from)
    ensures var g := MoveStackPart(c, from, to, n);
      && g.after.cursor.None?
      && Count(g.after, from) == Count(c, from) - n
      && g.moved == n
      && OthersUnchanged(c, g.after, from, to)
  {
    var singles := Repeat(Click(to, Right), n);
    var c1 := LeftClick(c, from);
    assert [Click(from, Left)][1..] == [];
    assert ApplyClicks(c, [Click(from, Left)]) == c1;
    PlaceSingles(c1, to, n);
    var c2 := ApplyClicks(c1, singles);
    var c3 := LeftClick(c2, from);
    assert ApplyClicks(c2, [Click(from, Left)]) == c3;
    ApplyClicksAppend(c, [Click(from, Left)], singles);
    ApplyClicksAppend(c, [Click(from, Left)] + singles, [Click(from, Left)]);
  }

  /** With an empty cursor the bulk loop makes at most one gesture, which drains the source. */
  lemma BulkWithEmptyCursor(c: Container, from: int, to: int, missing: int)
    requires 0 <= from < |c.slots| && 0 <= to < |c.slots| && from != to
    requires c.cursor.None?
    ensures var r := Bulk(c, from, to, missing);
      if BulkContinues(c, from, missing) then
        && r.moves == 1
        && r.after == MoveStack(c, from, to, false).after
        && r.missing == missing - Count(c, from)
      else
        r == BulkResult(c, [], 0, missing)
  {
    if BulkContinues(c, from, missing) {
      WholeStackGesture(c, from, to);
      var g := MoveStack(c, from, to, false);
      assert BulkLoop(g.after, from, to, missing - g.moved).moves == 0;
    }
  }

  /**
   * How much one evaluated tick moves when the cursor starts empty: the whole
   * source if it fits in `missing`, else its larger half if that fits, else
   * exactly `missing`; items only go from source to destination, nothing else
   * changes, and the destination never passes the transfer limit.
   */
  lemma EvaluateTransfer(spec: MoveSpec, c: Container)
    requires CheckMove(spec, c).None? && c.cursor.None? && spec.fromStack != spec.toStack
    ensures var r := Evaluate(spec, c);
      var from, to := spec.fromStack, spec.toStack;
      var s, m := Count(c, from), r.eval.initialMissing;
      var moved := Count(r.after, to) - Count(c, to);
      && r.after.cursor.None?
      && OthersUnchanged(c, r.after, from, to)
      && Count(r.after, from) == s - moved
      && r.eval.bulkMoves <= 1
      && (if s <= m then moved == s
          else if HalfApplies(s, m) then moved == s - JavaHalf(s)
          else if m > 0 then moved == m
          else moved == 0)
      && 0 <= moved
      && (m >= 0 ==> moved <= m && Count(r.after, to) <= r.eval.limit)
  {
    var from, to := spec.fromStack, spec.toStack;
    var r := Evaluate(spec, c);
    var m := r.eval.initialMissing;
    BulkWithEmptyCursor(c, from, to, m);
    var b := Bulk(c, from, to, m);
    var s1, m1 := Count(b.after, from), b.missing;
    if BulkContinues(c, from, m) {
      WholeStackGesture(c, from, to);
      assert s1 == 0;
    } else if HalfApplies(s1, m1) {
      HalfStackGesture(c, from, to);
    } else if m1 > 0 && s1 > 0 {
      PartialGesture(c, from, to, m1);
    }
  }

  /** The task's state and container after `n` ticks with no outside change. */
  datatype Run = Run(state: MoveState, screen: Option<Container>, clicks: seq<Click>, reports: seq<Report>)

  function RunTicks(spec: MoveSpec, st: MoveState, screen: Option<Container>, n: nat): (r: Run)
    ensures |r.reports| == n
    decreases n
  {
    if n == 0 then Run(st, screen, [], [])
    else
      var t := RunTick(spec, st, screen);
      var rest := RunTicks(spec, t.state, t.screen, n - 1);
      Run(rest.state, rest.screen, t.clicks + rest.clicks, [t.report] + rest.reports)
  }

  /** Nothing resets `moveDone`: once finished, the task stays finished. */
  lemma {:induction false} FinishedStaysFinished(spec: MoveSpec, st: MoveState, screen: Option<Container>, n: nat)
    requires IsFinished(st)
    ensures IsFinished(RunTicks(spec, st, screen, n).state)
    decreases n
  {
    if n > 0 {
      var t := RunTick(spec, st, screen);
      FinishedStaysFinished(spec, t.state, t.screen, n - 1);
    }
  }

  /** While a delay is pending and the container stays open, ticks only count down. */
  lemma {:induction false} PacingWaits(spec: MoveSpec, st: MoveState, c: Container, n: nat)
    requires n <= st.delay
    ensures var r := RunTicks(spec, st, Some(c), n);
      && r.state == st.(delay := st.delay - n)
      && r.screen == Some(c)
      && r.clicks == []
      && forall j | 0 <= j < n :: r.reports[j] == Waited
    decreases n
  {
    if n > 0 {
      var t := RunTick(spec, st, Some(c));
      PacingWaits(spec, t.state, c, n - 1);
      var rest := RunTicks(spec, t.state, t.screen, n - 1);
      assert forall j | 1 <= j < n :: ([t.report] + rest.reports)[j] == rest.reports[j - 1];
    }
  }

  /**
   * After any evaluated tick the next DELAY ticks issue no click, and the
   * tick after them is evaluated again unless a structural check fails.
   */
  lemma EvaluationThenQuietTicks(spec: MoveSpec, st: MoveState, c: Container)
    requires RunTick(spec, st, Some(c)).report.Evaluated?
    ensures var t := RunTick(spec, st, Some(c));
      var w := RunTicks(spec, t.state, t.screen, DELAY);
      && w.clicks == []
      && w.screen == t.screen
      && w.state.delay == 0
      && RunTick(spec, w.state, w.screen).report != Waited
  {
    var t := RunTick(spec, st, Some(c));
    PacingWaits(spec, t.state, t.screen.value, DELAY);
  }

  /**
   * One full stack requested into an empty destination: a single whole-stack
   * gesture moves it and the same tick completes the task.
   */
  lemma ScenarioWholeStack(spec: MoveSpec, st: MoveState, c: Container)
    requires DistinctSlotsInRange(spec, |c.slots|) && c.cursor.None? && st.delay == 0
    requires Count(c, spec.toStack) == 0 && Count(c, spec.fromStack) > 0
    requires spec.missingAmount(0) == Count(c, spec.fromStack)
    requires Count(c, spec.fromStack) <= c.slots[spec.toStack].slotLimit
    requires Count(c, spec.fromStack) <= c.slots[spec.fromStack].stack.value.maxStackSize
    ensures var t := RunTick(spec, st, Some(c));
      && t.clicks == [Click(spec.fromStack, Left), Click(spec.toStack, Left)]
      && t.report.Evaluated? && t.report.eval.tier == Done && t.report.eval.missing == 0
      && IsFinished(t.state)
      && Count(t.screen.value, spec.toStack) == Count(c, spec.fromStack)
      && Count(t.screen.value, spec.fromStack) == 0
  {
    EvaluateTransfer(spec, c);
    BulkWithEmptyCursor(c, spec.fromStack, spec.toStack, Count(c, spec.fromStack));
  }

  /**
   * Fewer than half the source requested into an empty destination: the
   * partial gesture places exactly that many items one at a time.
   */
  lemma ScenarioPartial(spec: MoveSpec, st: MoveState, c: Container, n: int)
    requires DistinctSlotsInRange(spec, |c.slots|) && c.cursor.None? && st.delay == 0
    requires Count(c, spec.toStack) == 0
    requires 0 < n < JavaHalf(Count(c, spec.fromStack)) && spec.missingAmount(0) == n
    requires n <= c.slots[spec.toStack].slotLimit
    requires n <= c.slots[spec.fromStack].stack.value.maxStackSize
    ensures var t := RunTick(spec, st, Some(c));
      && t.clicks == [Click(spec.fromStack, Left)] + Repeat(Click(spec.toStack, Right), n) + [Click(spec.fromStack, Left)]
      && t.report.Evaluated? && t.report.eval.tier == PartialStack
      && Count(t.screen.value, spec.toStack) == n
      && Count(t.screen.value, spec.fromStack) == Count(c, spec.fromStack) - n
      && IsFinished(t.state) == IsFinished(st)
  {
    EvaluateTransfer(spec, c);
    BulkWithEmptyCursor(c, spec.fromStack, spec.toStack, n);
  }

  /**
   * More requested than the source holds: the source is drained, the
   * missing-items notification gets the difference, the task is not done,
   * and its next evaluation reports an empty source.
   */
  lemma ScenarioShortfall(spec: MoveSpec, st: MoveState, c: Container, n: int)
    requires DistinctSlotsInRange(spec, |c.slots|) && c.cursor.None? && st.delay == 0 && !IsFinished(st)
    requires Count(c, spec.toStack) == 0 && Count(c, spec.fromStack) > 0
    requires Count(c, spec.fromStack) < n && spec.missingAmount(0) == n
    requires n <= c.slots[spec.toStack].slotLimit
    requires n <= c.slots[spec.fromStack].stack.value.maxStackSize
    ensures var t := RunTick(spec, st, Some(c));
      && t.report.Evaluated?
      && t.report.eval.tier == Shortfall(n - Count(c, spec.fromStack))
      && Count(t.screen.value, spec.toStack) == Count(c, spec.fromStack)
      && Count(t.screen.value, spec.fromStack) == 0
      && !IsFinished(t.state)
      && RunTick(spec, t.state.(delay := 0), t.screen).report == Failed(NothingInSourceSlot)
  {
    EvaluateTransfer(spec, c);
    BulkWithEmptyCursor(c, spec.fromStack, spec.toStack, n);
    WholeStackGesture(c, spec.fromStack, spec.toStack);
  }

  /**
   * With an empty cursor, a half-stack gesture from a slot onto itself takes
   * the larger half and puts it straight back.
   */
  lemma SameSlotHalfGesture(c: Container, i: int)
    requires 0 <= i < |c.slots| && c.cursor.None? && Count(c, i) > 0
    ensures var g := MoveStack(c, i, i, true);
      g.after.cursor.None? && g.moved == 0 && OthersUnchanged(c, g.after, i, i)
  {
    ApplyTwoClicks(c, Click(i, Right), Click(i, Left));
  }

  /**
   * With an empty cursor, a partial gesture from a slot onto itself picks the
   * stack up, puts `n` single items back and then the rest.
   */
  lemma SameSlotPartialGesture(c: Container, i: int, n: nat)
    requires 0 <= i < |c.slots| && c.cursor.None? && n < Count(c, i)
    ensures var g := MoveStackPart(c, i, i, n);
      g.after.cursor.None? && g.moved == 0 && OthersUnchanged(c, g.after, i, i)
  {
    var singles := Repeat(Click(i, Right), n);
    var c1 := LeftClick(c, i);
    assert [Click(i, Left)][1..] == [];
    assert ApplyClicks(c, [Click(i, Left)]) == c1;
    PlaceSingles(c1, i, n);
    var c2 := ApplyClicks(c1, singles);
    assert ApplyClicks(c2, [Click(i, Left)]) == LeftClick(c2, i);
    ApplyClicksAppend(c, [Click(i, Left)], singles);
    ApplyClicksAppend(c, [Click(i, Left)] + singles, [Click(i, Left)]);
  }

  /**
   * A move from a slot onto itself that does not spin moves nothing: the
   * slot keeps its count, `missing` keeps its value, and the task is done
   * exactly when nothing was missing.
   */
  lemma SameSlotTickMovesNothing(spec: MoveSpec, c: Container)
    requires CheckMove(spec, c).None? && spec.fromStack == spec.toStack
    requires c.cursor.None? && !WouldSpin(spec, c)
    ensures var r := Evaluate(spec, c);
      && r.after.cursor.None?
      && Count(r.after, spec.fromStack) == Count(c, spec.fromStack)
      && OthersUnchanged(c, r.after, spec.fromStack, spec.toStack)
      && r.eval.missing == r.eval.initialMissing
      && r.eval.bulkMoves == 0
      && (r.eval.tier.Done? <==> r.eval.initialMissing <= 0)
  {
    var i := spec.fromStack;
    var r := Evaluate(spec, c);
    var m := InitialMissing(spec, c);
    assert Bulk(c, i, i, m) == BulkResult(c, [], 0, m);
    if HalfApplies(Count(c, i), m) {
      SameSlotHalfGesture(c, i);
    } else if m > 0 {
      SameSlotPartialGesture(c, i, m);
    }
  }

  /**
   * A move from a slot onto itself while a stack is held, with the loop
   * condition true on entry: the first gesture merges the held stack into
   * the slot and picks the merged stack up again, so the slot is empty and
   * the loop stops. Every item of the slot ends on the cursor, and the tick
   * reports the request plus the slot's former count as missing.
   */
  lemma SameSlotHeldCursorTick(spec: MoveSpec, c: Container)
    requires CheckMove(spec, c).None? && spec.fromStack == spec.toStack
    requires c.cursor.Some? && HeldCount(c) > 0
    requires BulkContinues(c, spec.fromStack, InitialMissing(spec, c))
    ensures var r, i := Evaluate(spec, c), spec.fromStack;
      && r.eval.bulkMoves == 1
      && Count(r.after, i) == 0 && r.after.slots[i].stack.None?
      && HeldCount(r.after) == Count(c, i) + HeldCount(c)
      && OthersUnchanged(c, r.after, i, i)
      && r.eval.tier == Shortfall(InitialMissing(spec, c) + Count(c, i))
  {
    var i, m := spec.fromStack, InitialMissing(spec, c);
    var g := MoveStack(c, i, i, false);
    var c1 := LeftClick(c, i);
    var c2 := LeftClick(c1, i);
    assert g.after == c2 by {
      ApplyTwoClicks(c, Click(i, Left), Click(i, Left));
    }
    assert c1.cursor.None? && Count(c1, i) == Count(c, i) + HeldCount(c);
    assert c2.slots[i].stack.None? && HeldCount(c2) == Count(c1, i);
    assert g.moved == -Count(c, i);
    assert OthersUnchanged(c, c2, i, i);
    assert BulkLoop(g.after, i, i, m - g.moved) == BulkResult(g.after, [], 0, m - g.moved);
    assert BulkLoop(c, i, i, m).moves == 1;
  }

  /**
   * Ten items in slot 0 and nothing requested from slot 0 into slot 0: the
   * loop is not entered, nothing is clicked, and the task completes.
   */
  lemma SameSlotNothingRequested(st: MoveState)
    requires st.delay == 0
    ensures var c := Container([Slot(Some(ItemStack(10, 64)), 64)], None);
      var t := RunTick(MoveSpec(0, 0, k => 0), st, Some(c));
      && t.report.Evaluated? && t.report.eval.tier == Done
      && t.clicks == [] && t.screen == Some(c)
      && t.state == MoveState(true, DELAY)
  {
  }

  /**
   * With a held stack and an empty destination, when the held and source
   * items together fit in `missing`, the loop makes two gestures: the first
   * drops the held items on the source and moves nothing, the second carries
   * them all across.
   */
  lemma HeldCursorBulk(c: Container, from: int, to: int, missing: int)
    requires 0 <= from < |c.slots| && 0 <= to < |c.slots| && from != to
    requires c.cursor.Some? && HeldCount(c) > 0 && c.slots[to].stack.None?
    requires Count(c, from) > 0 && Count(c, from) + HeldCount(c) <= missing
    ensures Bulk(c, from, to, missing).moves == 2
    ensures Count(Bulk(c, from, to, missing).after, to) == Count(c, from) + HeldCount(c)
    ensures Count(Bulk(c, from, to, missing).after, from) == 0 && Bulk(c, from, to, missing).after.cursor.None?
    ensures Bulk(c, from, to, missing).missing == missing - (Count(c, from) + HeldCount(c))
  {
    var n := Count(c, from) + HeldCount(c);
    var g0 := MoveStack(c, from, to, false);
    assert Count(g0.after, from) == n && g0.after.cursor.None? && g0.after.slots[to].stack.None? && g0.moved == 0 by {
      ApplyTwoClicks(c, Click(from, Left), Click(to, Left));
    }
    var g1 := MoveStack(g0.after, from, to, false);
    assert Count(g1.after, to) == n && Count(g1.after, from) == 0 && g1.after.cursor.None? && g1.moved == n by {
      ApplyTwoClicks(g0.after, Click(from, Left), Click(to, Left));
    }
    var b2 := BulkLoop(g1.after, from, to, missing - n);
    assert b2 == BulkResult(g1.after, [], 0, missing - n);
    var b1 := BulkLoop(g0.after, from, to, missing);
    assert b1.after == b2.after && b1.moves == 1 && b1.missing == b2.missing;
    assert BulkLoop(c, from, to, missing).moves == 2;
  }

  /**
   * A held stack, a source stack, and an empty destination whose request
   * exceeds both together: two whole-stack gestures carry every held and
   * source item across, and the tick reports the rest as missing.
   */
  lemma HeldCursorShortfall(spec: MoveSpec, c: Container)
    requires CheckMove(spec, c).None? && spec.fromStack != spec.toStack
    requires c.cursor.Some? && HeldCount(c) > 0 && c.slots[spec.toStack].stack.None?
    requires Count(c, spec.fromStack) + HeldCount(c) < InitialMissing(spec, c)
    ensures var r, n := Evaluate(spec, c), Count(c, spec.fromStack) + HeldCount(c);
      && r.eval.bulkMoves == 2
      && r.eval.tier == Shortfall(InitialMissing(spec, c) - n)
      && Count(r.after, spec.toStack) == n && Count(r.after, spec.fromStack) == 0 && r.after.cursor.None?
  {
    HeldCursorBulk(c, spec.fromStack, spec.toStack, InitialMissing(spec, c));
  }

  /** A fresh task is evaluated on its first tick, and finishes then if one stack fills the request. */
  lemma FreshTaskWholeStack(spec: MoveSpec, c: Container)
    requires DistinctSlotsInRange(spec, |c.slots|) && c.cursor.None?
    requires Count(c, spec.toStack) == 0 && Count(c, spec.fromStack) > 0
    requires spec.missingAmount(0) == Count(c, spec.fromStack)
    requires Count(c, spec.fromStack) <= c.slots[spec.toStack].slotLimit
    requires Count(c, spec.fromStack) <= c.slots[spec.fromStack].stack.value.maxStackSize
    ensures !IsFinished(Initial)
    ensures RunTick(spec, Initial, Some(c)).report.Evaluated?
    ensures IsFinished(RunTick(spec, Initial, Some(c)).state)
  {
    ScenarioWholeStack(spec, Initial, c);
  }

  // The bulk loop exactly as MoveInInventoryTask runs it, for the case the model
  // reports as `SameSlotLoop` instead.

  datatype LoopState = LoopState(c: Container, missing: int, exited: bool)

  /**
   * The bulk loop as written, for at most `fuel` iterations: `exited` says
   * whether its condition became false within them.
   */
  function BulkAsWritten(c: Container, from: int, to: int, missing: int, fuel: nat): (r: LoopState)
    requires 0 <= from < |c.slots| && 0 <= to < |c.slots|
    ensures |r.c.slots| == |c.slots|
    ensures r.exited ==> !BulkContinues(r.c, from, r.missing)
    decreases fuel
  {
    if !BulkContinues(c, from, missing) then LoopState(c, missing, true)
    else if fuel == 0 then LoopState(c, missing, false)
    else
      var g := MoveStack(c, from, to, false);
      BulkAsWritten(g.after, from, to, missing - g.moved, fuel - 1)
  }

  /** With an empty cursor, moving a whole stack onto its own slot puts it back unchanged. */
  lemma SameSlotGestureIsNoOp(c: Container, i: int)
    requires 0 <= i < |c.slots| && c.cursor.None? && c.slots[i].stack.Some?
    ensures MoveStack(c, i, i, false).after == c
    ensures MoveStack(c, i, i, false).moved == 0
  {
    ApplyTwoClicks(c, Click(i, Left), Click(i, Left));
    var c2 := LeftClick(LeftClick(c, i), i);
    assert c2.slots[i] == c.slots[i];
    assert c2.slots == c.slots;
  }

  /** Once its condition holds with source equal to destination, the loop never exits. */
  lemma {:induction false} SameSlotBulkNeverExits(c: Container, i: int, missing: int, fuel: nat)
    requires 0 <= i < |c.slots| && c.cursor.None?
    requires BulkContinues(c, i, missing)
    ensures !BulkAsWritten(c, i, i, missing, fuel).exited
    decreases fuel
  {
    if fuel > 0 {
      SameSlotGestureIsNoOp(c, i);
      SameSlotBulkNeverExits(c, i, missing, fuel - 1);
    }
  }

  /**
   * Every request `WouldSpin` names makes the code's bulk loop run for ever;
   * `NonSpinningRequestsExit` is the converse.
   */
  lemma SpinningRequestsNeverExit(spec: MoveSpec, c: Container, fuel: nat)
    requires CheckMove(spec, c).None? && WouldSpin(spec, c)
    ensures !BulkAsWritten(c, spec.fromStack, spec.toStack, InitialMissing(spec, c), fuel).exited
  {
    SameSlotBulkNeverExits(c, spec.fromStack, InitialMissing(spec, c), fuel);
  }

  /**
   * Outside the spinning case the loop as written exits within `BulkWeight`
   * iterations, in the state `Bulk` computes.
   */
  lemma {:induction false} BulkAsWrittenAgrees(c: Container, from: int, to: int, missing: int, fuel: nat)
    requires 0 <= from < |c.slots| && 0 <= to < |c.slots|
    requires from != to || c.cursor.Some? || !BulkContinues(c, from, missing)
    requires fuel >= BulkWeight(c, from, to)
    ensures BulkAsWritten(c, from, to, missing, fuel).exited
    ensures BulkAsWritten(c, from, to, missing, fuel).c == Bulk(c, from, to, missing).after
    ensures BulkAsWritten(c, from, to, missing, fuel).missing == Bulk(c, from, to, missing).missing
    decreases fuel
  {
    if BulkContinues(c, from, missing) {
      var g := MoveStack(c, from, to, false);
      MoveAllLowersWeight(c, from, to);
      assert from == to ==> !BulkContinues(g.after, from, missing - g.moved);
      BulkAsWrittenAgrees(g.after, from, to, missing - g.moved, fuel - 1);
    }
  }

  /**
   * Every request `RunTick` evaluates leaves the loop as written, with the
   * source count and `missing` the tiers of `Evaluate` test.
   */
  lemma NonSpinningRequestsExit(spec: MoveSpec, c: Container)
    requires CheckMove(spec, c).None? && !WouldSpin(spec, c)
    ensures var w := BulkAsWritten(c, spec.fromStack, spec.toStack, InitialMissing(spec, c), BulkWeight(c, spec.fromStack, spec.toStack));
      && w.exited
      && Count(w.c, spec.fromStack) == Evaluate(spec, c).eval.bulkSource
      && w.missing == Evaluate(spec, c).eval.bulkMissing
  {
    BulkAsWrittenAgrees(c, spec.fromStack, spec.toStack, InitialMissing(spec, c), BulkWeight(c, spec.fromStack, spec.toStack));
  }

  /**
   * A concrete request MoveInInventoryTask's checks accept: ten items in slot 0,
   * twenty requested from slot 0 into slot 0. The loop spins for ever.
   */
  lemma SameSlotRequestSpins(fuel: nat)
    ensures var c := Container([Slot(Some(ItemStack(10, 64)), 64)], None);
      var spec := MoveSpec(0, 0, k => 20);
      && CheckMove(spec, c).None?
      && InitialMissing(spec, c) == 20
      && WouldSpin(spec, c)
      && !BulkAsWritten(c, 0, 0, 20, fuel).exited
      && RunTick(spec, Initial, Some(c)).report == Failed(SameSlotLoop)
  {
    var c := Container([Slot(Some(ItemStack(10, 64)), 64)], None);
    SameSlotBulkNeverExits(c, 0, 20, fuel);
  }
}

=== FILE: wrappers.dfy ===
/** Optional values, standing in for Java's nullable references. */
module Wrappers {

  datatype Option<+T> = None | Some(value: T)

}
